=== FILE: README.md ===
# Exoplanet habitability service — serving core

This project models the decision logic of the Flask service in `app.py`
that scores exoplanets with a trained habitability classifier. Three pure
decisions are taken out of their HTTP handlers:

- **Required-field check** (`predict` and `predict_input`): the ordered list
  of the nine required field names (`radius`, `mass`, `temp`,
  `orbital_period`, `distance_star`, `star_temp`, `eccentricity`,
  `semi_major_axis`, `star_type`) whose key is absent from the JSON body. A
  non-empty list rejects the request before any scoring.
- **Threshold verdict** (`predict`): `habitable` is 1 exactly when the
  classifier's unrounded probability is at least 0.3; only the reported
  `probability` is rounded to three decimals.
- **Batch ranker** (`rank`): every row gets its probability and the
  descending average rank of pandas' `Series.rank` (ties share the mean of
  the positions they occupy), and the rows are ordered by rank.

The trained classifier is a parameter of type `Planet.Classifier`, a total
function from a record to a probability in [0, 1]; rejection is a value of
the response datatype instead of an HTTP 400.

Files: `planet.dfy` (records, required fields, classifier type),
`validation.dfy` (the missing-field list), `scoring.dfy` (`predict`,
`predict_input`, threshold and rounding), `ranking.dfy` (`rank`: average
rank, sort, properties of the answer), `endpoints.dfy` (the difference
between the single and the batch endpoint).

`Series.rank(ascending=False)` uses pandas' default `method='average'`, so
ties get fractional ranks such as 2.5, not dense integer ranks. The model
follows this.

## Model

| member | source | states |
|---|---|---|
| Validation.Absent | app.py:64 | a name is in the result exactly when it is in the field list and not a key of the body; for a list without repeats the result keeps the list's order (so has no repeats) |
| Validation.MissingFields | app.py:52-64 | the missing list names exactly the required fields absent from the body, in the declared order, without duplicates; it is empty exactly when every required key is present |
| Validation.MissingFieldsUnique | app.py:52-64 | any list naming exactly the absent required fields in declared order equals the missing list, so the list is fully determined by which keys are absent |
| Validation.AbsentDependsOnKeysOnly | app.py:64 | two bodies with the same key set get the same missing list, whatever their values |
| Validation.PresentKeyCountsWhateverValue | app.py:64 | a present key counts as supplied whatever its value, JSON null included |
| Validation.EmptyBodyMissesAll | app.py:52-64 | a body without keys is reported missing all nine fields in declared order |
| Scoring.Verdict | app.py:73 | the verdict is 0 or 1, and 1 exactly when the probability is at least 0.3 |
| Scoring.VerdictMonotone | app.py:73 | a higher probability never gives a lower verdict |
| Scoring.Round3 | app.py:76 | the reported value is a multiple of 0.001 within 0.0005 of the probability and stays in [0, 1] |
| Scoring.Round3IsNearest | app.py:76 | no multiple of 0.001 is closer to the probability than the reported value |
| Scoring.Predict | app.py:49-77 | the body is rejected exactly when some required key is absent, with the missing list; otherwise the verdict compares the unrounded probability with 0.3, and the reported probability is that probability rounded to three decimals: a multiple of 0.001 within 0.0005 of it |
| Scoring.RejectionIgnoresClassifier | app.py:64-72 | a rejected body gets the same answer under every classifier, so the classifier plays no part in it |
| Scoring.VerdictUsesUnroundedProbability | app.py:72-77 | a probability of 0.2996 is reported as 0.3 yet gets verdict 0, while comparing the rounded value would give 1 |
| Scoring.PredictInput | app.py:93-117 | the body is rejected exactly when some required key is absent, with the missing list; an accepted body is echoed unchanged |
| Scoring.EndpointsAgree | app.py:49-113 | `predict` and `predict_input` reject exactly the same bodies, with the same missing list |
| Ranking.AverageRank | app.py:85 | the descending average rank of a probability of the batch lies in [1, N], and a probability without ties gets the integer position one past the number of larger ones; `AverageRankOrder`, `AverageRankIsMeanPosition` and `TiedRowsOccupyPositions` characterise it further |
| Ranking.AverageRankBounds | app.py:85 | the rank of every probability of the batch lies in [1, N] |
| Ranking.AverageRankStrictlyDecreasing | app.py:85 | a strictly higher probability gets a strictly smaller rank |
| Ranking.AverageRankOrder | app.py:85 | within a batch, two ranks are equal exactly when the probabilities are, and one rank is smaller exactly when its probability is larger |
| Ranking.AverageRankIsMeanPosition | app.py:85 | arithmetic identity: the average rank of x times its number of ties equals the sum of the 1-based positions CountAbove + 1 through CountAbove + CountEqual, so the rank is the mean of those positions |
| Ranking.TiedRowsOccupyPositions | app.py:83-86 | in the answer, the rows with probability x are exactly those at 0-based positions CountAbove through CountAbove + CountEqual - 1, and the rows above x are exactly those before them; with AverageRankIsMeanPosition, each tied row's rank is the mean of the positions the ties occupy |
| Ranking.AverageRankExample | app.py:85 | probabilities [0.9, 0.5, 0.5] get ranks 1 and 2.5 |
| Ranking.Annotate | app.py:83-85 | attaching the columns keeps the rows in batch order, gives row i the classifier's probability for row i and the average rank of that probability within the batch, which lies in [1, N], and gives two rows the same rank exactly when they have the same probability |
| Ranking.SortByRank | app.py:86 | the result is a permutation of its input, in non-decreasing rank |
| Ranking.Rank | app.py:80-86 | the answer has one row per input row, is a permutation of the rows with both columns attached, and runs in non-decreasing rank |
| Ranking.RankedRowsAreScored | app.py:82-86 | the answer's original rows are the batch's rows reordered; each row carries its own probability and the average rank of that probability within the batch, which lies in [1, N] |
| Ranking.RankedByProbability | app.py:83-86 | the answer runs in non-increasing probability, and two rows share a rank exactly when they share a probability |
| Ranking.SortedPermutationsAgreeOnRanks | app.py:86 | two rank-sorted orders of the same rows have equal ranks at every position |
| Ranking.AnySortedAnswerAgrees | app.py:83-86 | every rank-sorted permutation of the scored batch, whatever its order among ties, has the same rank and probability at every position as the model's answer |
| Ranking.AsRecord | app.py:83-88 | an answer row keeps every original field and adds `habitability_probability` and `rank`, which replace same-named fields |
| Ranking.RankResponse | app.py:80-88 | the `ranked_exoplanets` list has one record per input row; every record is some input row with all of its fields kept, plus that row's own classifier probability and its average rank within the batch in the two derived columns; every record carries numeric `habitability_probability` and `rank` columns, the rank lies in [1, N], and from one record to the next the rank never falls and the probability never rises |
| Ranking.RankEmptyBatch | app.py:80-86 | an empty batch gives an empty answer |
| Ranking.RankSingleRow | app.py:80-86 | a one-row batch comes back as that row with rank 1 |
| Ranking.RankExample | app.py:80-86 | three planets scored 0.9, 0.5 and 0.5 come back with ranks 1, 2.5 and 2.5 |
| Endpoints.RankChecksNoFields | app.py:79-86 | a body with no fields is rejected by `predict` with all nine names, but `rank` scores it and ranks it first |

## Left out

- Flask routing, `jsonify`, HTTP status codes, CORS and the `home` route (app.py:1-8, 21-26, 132-133): framework plumbing. Rejection is the `Rejected` / `InputRejected` value.
- Database access (`get_db_connection`, `db_test`, `get_planets`, app.py:11-47, 119-130): I/O against an external Postgres server.
- Loading the model with `joblib.load` and the inside of `predict_proba` (app.py:9, 72, 83): a foreign library. The classifier is the opaque parameter `model`, assumed to return the class-1 probability in [0, 1]. The batched call in `rank` is assumed to score each row as the single-row call would.
- A request body that is not a JSON object (a list, a string or `null`): the membership test on app.py:64 then means something else or raises. The model takes the body to be a JSON object.
- Ranking.Rank: takes the body to be a JSON array of objects, one per planet. `pd.DataFrame(data)` on app.py:82 also accepts other shapes: an object of equal-length column arrays (ranked as that many rows), an array of non-objects, or an object of scalars (which raises). The model cannot represent these inputs.
- Planet.Record: a JSON object is an unordered map. The body's key order, which becomes the column order `predict_proba` sees at app.py:70 and app.py:82, is dropped, and the classifier is assumed not to depend on it.
- Scoring.Round3: rounds the exact real value, halves to the even neighbour. Python rounds the binary float value, so the two can differ on values that are halfway in decimal but not in binary; IEEE floating point is not modelled.
- Ranking.Rank: fixes one order among tied rows, because the insertion sort it uses is stable. pandas' default `sort_values` promises no order among ties; `Ranking.AnySortedAnswerAgrees` states what every such order has in common.
- Ranking.AsRecord: covers one row on its own. `pd.DataFrame(data)` gives every row the union of all rows' keys, filling the gaps with NaN, and converts each column to one type, so an explicit `null` in an otherwise numeric column comes back from `to_dict(orient="records")` as NaN rather than `null`; that DataFrame detail and NaN probabilities (NaN rank) are library behaviour and are not modelled. `Ranking.RankResponse` inherits this gap: it returns each row's values as the body gave them.
- Ranking.RankEmptyBatch: an empty batch gives an empty answer in the model. scikit-learn estimators usually reject a zero-row frame, but that library behaviour is not visible in the source.
- The offline cleaning script `cleaned_data(M1).py` (column renaming, merge and de-duplication, default, mean, group-median and KNN imputation, row dropping) is not part of this model. It is a one-shot pandas/scikit-learn script, not part of the serving core.

=== FILE: endpoints.dfy ===
/**
 The two scoring endpoints side by side: `predict` validates its body,
 `rank` does not.
 */
module Endpoints {
  import opened Planet
  import opened Validation
  import opened Scoring
  import opened Ranking

  /** A body with none of the nine fields is rejected by `predict` with the
      whole required list, yet as a one-row batch `rank` scores it and
      ranks it first. */
  lemma RankChecksNoFields(model: Classifier)
    ensures Predict(map[], model) == Rejected(RequiredFields)
    ensures Rank([map[]], model) == [RankedRow(map[], model(map[]), 1.0)]
  {
    var row: Record := map[];
    assert Predict(row, model) == Rejected(RequiredFields) by {
      EmptyBodyMissesAll();
    }
    RankSingleRow(row, model);
  }
}

=== FILE: planet.dfy ===
/**
 The request-side data model of the habitability service: a JSON-like
 planet record, the nine required field names, and the trained classifier,
 which the model treats as an opaque function into [0, 1].
 */
module Planet {

  /** A JSON value as it arrives in a request body: any of the six JSON
      kinds, nested arrays and objects included. */
  datatype Value =
    | Null
    | Num(x: real)
    | Str(s: string)
    | Bool(b: bool)
    | Arr(items: seq<Value>)
    | Obj(fields: map<string, Value>)

  /** One planet as a JSON object: field name to value. */
  type Record = map<string, Value>

  /** The nine fields a single-planet request must carry, in the order the
      service lists them (and reports them when they are missing). */
  const RequiredFields: seq<string> := [
    "radius",
    "mass",
    "temp",
    "orbital_period",
    "distance_star",
    "star_temp",
    "eccentricity",
    "semi_major_axis",
    "star_type"
  ]

  /** A probability of the positive ("habitable") class. */
  type Probability = p: real | 0.0 <= p <= 1.0 witness 0.0

  /** The trained classifier: the probability of class 1 for one row. */
  type Classifier = Record -> Probability

  /** No element occurs twice. */
  predicate Distinct<T(==)>(s: seq<T>) {
    forall i, j :: 0 <= i < j < |s| ==> s[i] != s[j]
  }

  /** Position of the first occurrence of `x` in `s`. */
  function IndexOf<T(==)>(s: seq<T>, x: T): (i: nat)
    requires x in s
    ensures i < |s| && s[i] == x
    ensures forall j :: 0 <= j < i ==> s[j] != x
  {
    if s[0] == x then 0 else 1 + IndexOf(s[1..], x)
  }

  lemma RequiredFieldsDistinct()
    ensures |RequiredFields| == 9
    ensures Distinct(RequiredFields)
  {
  }
}

=== FILE: ranking.dfy ===
/**
 The `rank` endpoint: score every row of a batch, give each row the
 descending average rank of its probability (ties share the mean of the
 positions they occupy), and order the rows by that rank. Unlike `predict`
 it checks no required fields.
 */
module Ranking {
  import opened Planet

  /** Number of probabilities in `ps` strictly above `x`. */
  function CountAbove(ps: seq<real>, x: real): (n: nat)
    ensures n <= |ps|
  {
    if |ps| == 0 then 0
    else (if ps[0] > x then 1 else 0) + CountAbove(ps[1..], x)
  }

  /** Number of probabilities in `ps` equal to `x`. */
  function CountEqual(ps: seq<real>, x: real): (n: nat)
    ensures n <= |ps|
  {
    if |ps| == 0 then 0
    else (if ps[0] == x then 1 else 0) + CountEqual(ps[1..], x)
  }

  /** The descending rank of value `x` within `ps` with ties averaged:
      one plus the number of strictly larger values, plus half the number
      of other values equal to `x`. */
  function AverageRank(ps: seq<real>, x: real): (r: real)
    ensures x in ps ==> 1.0 <= r <= |ps| as real
    ensures CountEqual(ps, x) == 1 ==> r == (CountAbove(ps, x) + 1) as real
  {
    assert x in ps ==> CountEqual(ps, x) >= 1 by {
      if x in ps {
        CountEqualOfMember(ps, x);
      }
    }
    CountsFit(ps, x);
    AverageRankOfRun(CountAbove(ps, x), CountEqual(ps, x))
  }

  /** The rank shared by a run of `count` tied values that come after
      `above` strictly larger ones. */
  function AverageRankOfRun(above: nat, count: nat): real {
    above as real + (count as real + 1.0) / 2.0
  }

  /** One row of the answer: the original fields plus the two derived
      columns. */
  datatype RankedRow = RankedRow(row: Record, probability: Probability, rank: real)

  const ProbabilityColumn: string := "habitability_probability"
  const RankColumn: string := "rank"

  /** A ranked row as the endpoint returns it: the original fields plus the
      two derived columns, which overwrite any field of the same name. */
  function AsRecord(r: RankedRow): (out: Record)
    ensures out.Keys == r.row.Keys + {ProbabilityColumn, RankColumn}
    ensures out[ProbabilityColumn] == Num(r.probability)
    ensures out[RankColumn] == Num(r.rank)
    ensures forall k :: k in r.row && k != ProbabilityColumn && k != RankColumn ==> out[k] == r.row[k]
  {
    r.row[ProbabilityColumn := Num(r.probability)][RankColumn := Num(r.rank)]
  }

  /** The classifier's probability for every row, in batch order. */
  function Probabilities(rows: seq<Record>, model: Classifier): seq<real> {
    seq(|rows|, i requires 0 <= i < |rows| => model(rows[i]) as real)
  }

  /** The batch with both derived columns attached, still in batch order:
      row i gets the classifier's probability for it and the average rank
      of that probability within the batch, every rank lies in [1, N], and
      two rows get the same rank exactly when they get the same
      probability. */
  function Annotate(rows: seq<Record>, model: Classifier): (out: seq<RankedRow>)
    ensures |out| == |rows|
    ensures RowsOf(out) == rows
    ensures forall i :: 0 <= i < |out| ==>
      out[i].probability == model(rows[i])
      && out[i].rank == AverageRank(Probabilities(rows, model), model(rows[i]))
    ensures forall i :: 0 <= i < |out| ==> 1.0 <= out[i].rank <= |rows| as real
    ensures forall i, j :: 0 <= i < |out| && 0 <= j < |out| ==>
      (out[i].rank == out[j].rank <==> out[i].probability == out[j].probability)
  {
    var ps := Probabilities(rows, model);
    var out := seq(|rows|, i requires 0 <= i < |rows| => RankedRow(rows[i], model(rows[i]), AverageRank(ps, model(rows[i]))));
    assert forall i :: 0 <= i < |out| ==> 1.0 <= out[i].rank <= |rows| as real by {
      forall i | 0 <= i < |out| ensures 1.0 <= out[i].rank <= |rows| as real {
        assert ps[i] == model(rows[i]);
        AverageRankBounds(ps, ps[i]);
      }
    }
    assert forall i, j :: 0 <= i < |out| && 0 <= j < |out| ==>
      (out[i].rank == out[j].rank <==> out[i].probability == out[j].probability) by {
      forall i, j | 0 <= i < |out| && 0 <= j < |out|
        ensures out[i].rank == out[j].rank <==> out[i].probability == out[j].probability
      {
        assert ps[i] == model(rows[i]) && ps[j] == model(rows[j]);
        AverageRankOrder(ps, ps[i], ps[j]);
      }
    }
    out
  }

  /** Non-decreasing by rank. */
  predicate SortedByRank(s: seq<RankedRow>) {
    forall i, j :: 0 <= i < j < |s| ==> s[i].rank <= s[j].rank
  }

  /** Put `x` in front of the first row whose rank is not smaller than its
      own, so that rows of equal rank keep their relative order. */
  function InsertByRank(x: RankedRow, s: seq<RankedRow>): (r: seq<RankedRow>)
    requires SortedByRank(s)
    ensures SortedByRank(r)
    ensures multiset(r) == multiset(s) + multiset{x}
  {
    if |s| == 0 then [x]
    else if x.rank <= s[0].rank then [x] + s
    else
      var tail := InsertByRank(x, s[1..]);
      assert multiset(s) == multiset{s[0]} + multiset(s[1..]) by {
        assert s == [s[0]] + s[1..];
      }
      assert forall y :: y in tail ==> s[0].rank <= y.rank by {
        forall y | y in tail ensures s[0].rank <= y.rank {
          assert y in multiset(tail);
          assert y == x || y in multiset(s[1..]);
        }
      }
      [s[0]] + tail
  }

  /** Order rows by non-decreasing rank. */
  function SortByRank(s: seq<RankedRow>): (r: seq<RankedRow>)
    ensures SortedByRank(r)
    ensures multiset(r) == multiset(s)
  {
    if |s| == 0 then []
    else
      assert s == [s[0]] + s[1..];
      InsertByRank(s[0], SortByRank(s[1..]))
  }

  /** The `rank` endpoint with the trained classifier as a parameter. */
  function Rank(rows: seq<Record>, model: Classifier): (ranked: seq<RankedRow>)
    ensures |ranked| == |rows|
    ensures multiset(ranked) == multiset(Annotate(rows, model))
    ensures SortedByRank(ranked)
  {
    var r := SortByRank(Annotate(rows, model));
    assert |r| == |multiset(r)|;
    r
  }

  /** `rec` is input row `r` as the answer returns it: all of its fields,
      except that the two derived columns hold `r`'s own probability and
      its average rank within the batch. */
  predicate ScoredRecordOf(rec: Record, r: Record, rows: seq<Record>, model: Classifier) {
    && rec.Keys == r.Keys + {ProbabilityColumn, RankColumn}
    && rec[ProbabilityColumn] == Num(model(r))
    && rec[RankColumn] == Num(AverageRank(Probabilities(rows, model), model(r)))
    && forall k :: k in r && k != ProbabilityColumn && k != RankColumn ==> rec[k] == r[k]
  }

  /** The endpoint's `ranked_exoplanets` list: the ranked rows as records,
      best first. Every record is some input row with that row's own
      probability and rank attached, and the rank column never falls from
      one record to the next. */
  function RankResponse(rows: seq<Record>, model: Classifier): (out: seq<Record>)
    ensures |out| == |rows|
    ensures forall i :: 0 <= i < |out| ==>
      exists r :: r in rows && ScoredRecordOf(out[i], r, rows, model)
    ensures forall i :: 0 <= i < |out| ==>
      ProbabilityColumn in out[i] && RankColumn in out[i]
      && out[i][ProbabilityColumn].Num? && out[i][RankColumn].Num?
      && 1.0 <= out[i][RankColumn].x <= |rows| as real
    ensures forall i, j :: 0 <= i < j < |out| ==>
      out[i][RankColumn].x <= out[j][RankColumn].x
      && out[i][ProbabilityColumn].x >= out[j][ProbabilityColumn].x
  {
    var out: seq<Record> := AsRecords(Rank(rows, model));
    RecordsAreScoredRows(rows, model);
    RecordsHaveBoundedRanks(rows, model);
    RecordsInOrder(rows, model);
    out
  }

  /** Every ranked row as a record, in the same order. */
  function AsRecords(ranked: seq<RankedRow>): (out: seq<Record>)
    ensures |out| == |ranked|
    ensures forall i :: 0 <= i < |ranked| ==> out[i] == AsRecord(ranked[i])
  {
    seq(|ranked|, i requires 0 <= i < |ranked| => AsRecord(ranked[i]))
  }

  /** Every record of the answer is an input row with its own probability
      and rank attached. */
  lemma RecordsAreScoredRows(rows: seq<Record>, model: Classifier)
    ensures forall i :: 0 <= i < |AsRecords(Rank(rows, model))| ==>
      exists r :: r in rows && ScoredRecordOf(AsRecords(Rank(rows, model))[i], r, rows, model)
  {
    var out: seq<Record> := AsRecords(Rank(rows, model));
    forall i | 0 <= i < |out|
      ensures exists r :: r in rows && ScoredRecordOf(out[i], r, rows, model)
    {
      RankedRecordIsScored(rows, model, i);
    }
  }

  /** Every record of the answer carries both derived columns, with a rank
      in [1, N]. */
  lemma RecordsHaveBoundedRanks(rows: seq<Record>, model: Classifier)
    ensures forall i :: 0 <= i < |AsRecords(Rank(rows, model))| ==>
      var rec: Record := AsRecords(Rank(rows, model))[i];
      ProbabilityColumn in rec && RankColumn in rec
      && rec[ProbabilityColumn].Num? && rec[RankColumn].Num?
      && 1.0 <= rec[RankColumn].x <= |rows| as real
  {
    var out: seq<Record> := AsRecords(Rank(rows, model));
    forall i | 0 <= i < |out|
      ensures 1.0 <= out[i][RankColumn].x <= |rows| as real
    {
      RankedRecordIsScored(rows, model, i);
    }
  }

  /** Along the answer the rank column never falls and the probability
      column never rises. */
  lemma RecordsInOrder(rows: seq<Record>, model: Classifier)
    ensures forall i, j :: 0 <= i < j < |AsRecords(Rank(rows, model))| ==>
      var a: Record, b: Record := AsRecords(Rank(rows, model))[i], AsRecords(Rank(rows, model))[j];
      a[RankColumn].x <= b[RankColumn].x && a[ProbabilityColumn].x >= b[ProbabilityColumn].x
  {
    var out: seq<Record> := AsRecords(Rank(rows, model));
    forall i, j | 0 <= i < j < |out|
      ensures out[i][RankColumn].x <= out[j][RankColumn].x
      ensures out[i][ProbabilityColumn].x >= out[j][ProbabilityColumn].x
    {
      RankedRecordsInOrder(rows, model, i, j);
    }
  }

  /** Answer row `k`, turned into a record, is an input row with its own
      probability and rank attached, and that rank lies in [1, N]. */
  lemma RankedRecordIsScored(rows: seq<Record>, model: Classifier, k: nat)
    requires k < |Rank(rows, model)|
    ensures Rank(rows, model)[k].row in rows
    ensures ScoredRecordOf(AsRecord(Rank(rows, model)[k]), Rank(rows, model)[k].row, rows, model)
    ensures 1.0 <= Rank(rows, model)[k].rank <= |rows| as real
  {
    RankedRowsAreScored(rows, model);
  }

  /** An earlier answer row has a rank no larger and a probability no
      smaller than a later one. */
  lemma RankedRecordsInOrder(rows: seq<Record>, model: Classifier, i: nat, j: nat)
    requires i < j < |Rank(rows, model)|
    ensures Rank(rows, model)[i].rank <= Rank(rows, model)[j].rank
    ensures Rank(rows, model)[i].probability >= Rank(rows, model)[j].probability
  {
    RankedByProbability(rows, model);
  }

  // ---------------------------------------------------------------------
  // Average ranks
  // ---------------------------------------------------------------------

  /** A value of the batch is equal to itself at least once. */
  lemma {:induction false} CountEqualOfMember(ps: seq<real>, x: real)
    requires x in ps
    ensures CountEqual(ps, x) >= 1
    decreases |ps|
  {
    if ps[0] != x {
      assert x in ps[1..];
      CountEqualOfMember(ps[1..], x);
    }
  }

  /** Values above `x` and values equal to `x` are disjoint parts of `ps`. */
  lemma {:induction false} CountsFit(ps: seq<real>, x: real)
    ensures CountAbove(ps, x) + CountEqual(ps, x) <= |ps|
    decreases |ps|
  {
    if |ps| > 0 {
      CountsFit(ps[1..], x);
    }
  }

  /** Every value at or above `x` is strictly above any smaller `y`. */
  lemma {:induction false} CountAboveBelow(ps: seq<real>, x: real, y: real)
    requires y < x
    ensures CountAbove(ps, y) >= CountAbove(ps, x) + CountEqual(ps, x)
    decreases |ps|
  {
    if |ps| > 0 {
      CountAboveBelow(ps[1..], x, y);
    }
  }

  /** Every rank lies in [1, N]. */
  lemma AverageRankBounds(ps: seq<real>, x: real)
    requires x in ps
    ensures 1.0 <= AverageRank(ps, x) <= |ps| as real
  {
    CountEqualOfMember(ps, x);
    CountsFit(ps, x);
  }

  /** A strictly higher probability gets a strictly smaller rank. */
  lemma AverageRankStrictlyDecreasing(ps: seq<real>, x: real, y: real)
    requires x in ps && y in ps
    requires y < x
    ensures AverageRank(ps, x) < AverageRank(ps, y)
  {
    CountEqualOfMember(ps, y);
    CountAboveBelow(ps, x, y);
  }

  /** Ranks order the batch exactly as probabilities do, reversed: equal
      probabilities share a rank, and a smaller rank means a strictly
      higher probability. */
  lemma AverageRankOrder(ps: seq<real>, x: real, y: real)
    requires x in ps && y in ps
    ensures AverageRank(ps, x) == AverageRank(ps, y) <==> x == y
    ensures AverageRank(ps, x) < AverageRank(ps, y) <==> x > y
  {
    if y < x {
      AverageRankStrictlyDecreasing(ps, x, y);
    } else if x < y {
      AverageRankStrictlyDecreasing(ps, y, x);
    }
  }

  /** Sum of the positions first + 1, ..., first + count. */
  function SumOfPositions(first: nat, count: nat): nat {
    if count == 0 then 0 else SumOfPositions(first, count - 1) + first + count
  }

  lemma {:induction false} SumOfPositionsClosed(first: nat, count: nat)
    ensures SumOfPositions(first, count) as real
      == AverageRankOfRun(first, count) * count as real
  {
    if count > 0 {
      SumOfPositionsClosed(first, count - 1);
    }
  }

  /** The average rank is what its name says: the tied values of `x`
      would occupy the descending positions CountAbove + 1 through
      CountAbove + CountEqual, and the rank is the mean of those positions
      (their sum divided by their number). */
  lemma AverageRankIsMeanPosition(ps: seq<real>, x: real)
    ensures AverageRank(ps, x) * CountEqual(ps, x) as real
      == SumOfPositions(CountAbove(ps, x), CountEqual(ps, x)) as real
  {
    SumOfPositionsClosed(CountAbove(ps, x), CountEqual(ps, x));
  }

  /** Probabilities [0.9, 0.5, 0.5] get ranks [1, 2.5, 2.5]. */
  lemma AverageRankExample()
    ensures AverageRank([0.9, 0.5, 0.5], 0.9) == 1.0
    ensures AverageRank([0.9, 0.5, 0.5], 0.5) == 2.5
  {
  }

  // ---------------------------------------------------------------------
  // The ranked batch
  // ---------------------------------------------------------------------

  /** The original rows of a ranked batch. */
  function RowsOf(s: seq<RankedRow>): (rows: seq<Record>)
    ensures |rows| == |s|
    ensures forall i :: 0 <= i < |s| ==> rows[i] == s[i].row
  {
    seq(|s|, i requires 0 <= i < |s| => s[i].row)
  }

  lemma RowsOfCons(y: RankedRow, s: seq<RankedRow>)
    ensures RowsOf([y] + s) == [y.row] + RowsOf(s)
  {
  }

  /** Inserting a row adds its record to the rows. */
  lemma {:induction false} InsertKeepsRows(x: RankedRow, s: seq<RankedRow>)
    requires SortedByRank(s)
    ensures multiset(RowsOf(InsertByRank(x, s))) == multiset(RowsOf(s)) + multiset{x.row}
    decreases |s|
  {
    if |s| == 0 {
    } else if x.rank <= s[0].rank {
      RowsOfCons(x, s);
    } else {
      assert SortedByRank(s[1..]);
      InsertKeepsRows(x, s[1..]);
      RowsOfCons(s[0], InsertByRank(x, s[1..]));
      RowsOfCons(s[0], s[1..]);
      assert s == [s[0]] + s[1..];
    }
  }

  /** Sorting reorders the rows and changes none of them. */
  lemma {:induction false} SortKeepsRows(s: seq<RankedRow>)
    ensures multiset(RowsOf(SortByRank(s))) == multiset(RowsOf(s))
    decreases |s|
  {
    if |s| > 0 {
      SortKeepsRows(s[1..]);
      InsertKeepsRows(s[0], SortByRank(s[1..]));
      RowsOfCons(s[0], s[1..]);
      assert s == [s[0]] + s[1..];
    }
  }

  /** Every answer row carries its own probability and the average rank of
      that probability within the batch; the answer is the input batch
      reordered, rows unchanged. */
  lemma RankedRowsAreScored(rows: seq<Record>, model: Classifier)
    ensures multiset(RowsOf(Rank(rows, model))) == multiset(rows)
    ensures forall k :: 0 <= k < |Rank(rows, model)| ==>
      var r := Rank(rows, model)[k];
      && r.row in rows
      && r.probability == model(r.row)
      && r.rank == AverageRank(Probabilities(rows, model), r.probability)
      && 1.0 <= r.rank <= |rows| as real
  {
    var ranked := Rank(rows, model);
    var ann := Annotate(rows, model);
    SortKeepsRows(ann);
    assert RowsOf(ann) == rows;
    forall k | 0 <= k < |ranked|
      ensures ranked[k].row in rows
      ensures ranked[k].probability == model(ranked[k].row)
      ensures ranked[k].rank == AverageRank(Probabilities(rows, model), ranked[k].probability)
      ensures 1.0 <= ranked[k].rank <= |rows| as real
    {
      assert ranked[k] in multiset(ann);
      var i :| 0 <= i < |ann| && ann[i] == ranked[k];
      var ps := Probabilities(rows, model);
      assert ps[i] == ranked[k].probability;
      AverageRankBounds(ps, ranked[k].probability);
    }
  }

  /** The answer runs from the most to the least habitable planet, and two
      rows share a rank exactly when they share a probability. */
  lemma RankedByProbability(rows: seq<Record>, model: Classifier)
    ensures forall i, j :: 0 <= i < j < |Rank(rows, model)| ==>
      Rank(rows, model)[i].probability >= Rank(rows, model)[j].probability
    ensures forall i, j :: 0 <= i < |Rank(rows, model)| && 0 <= j < |Rank(rows, model)| ==>
      (Rank(rows, model)[i].rank == Rank(rows, model)[j].rank
       <==> Rank(rows, model)[i].probability == Rank(rows, model)[j].probability)
  {
    var ranked := Rank(rows, model);
    var ps := Probabilities(rows, model);
    RankedRowsAreScored(rows, model);
    forall i | 0 <= i < |ranked| ensures ranked[i].probability as real in ps {
      var k := IndexOf(rows, ranked[i].row);
      assert ps[k] == ranked[i].probability;
    }
    forall i, j | 0 <= i < |ranked| && 0 <= j < |ranked|
      ensures ranked[i].rank == ranked[j].rank <==> ranked[i].probability == ranked[j].probability
      ensures ranked[i].rank <= ranked[j].rank ==> ranked[i].probability >= ranked[j].probability
    {
      AverageRankOrder(ps, ranked[i].probability, ranked[j].probability);
    }
  }

  /** Taking the head of `s` out of a permutation `t` of it leaves a
      permutation of the tail of `s`. */
  lemma TailMatchesRemainder<T>(s: seq<T>, t: seq<T>, k: nat)
    requires multiset(s) == multiset(t)
    requires 0 < |s| && k < |t| && t[k] == s[0]
    ensures multiset(s[1..]) == multiset(t[..k] + t[k + 1..])
  {
    var rest := t[..k] + t[k + 1..];
    assert t == t[..k] + [t[k]] + t[k + 1..];
    assert s == [s[0]] + s[1..];
    assert multiset(t) == multiset(t[..k]) + multiset{t[k]} + multiset(t[k + 1..]);
    assert multiset(rest) == multiset(t[..k]) + multiset(t[k + 1..]);
    assert multiset(s) == multiset{s[0]} + multiset(s[1..]);
    assert multiset(s[1..]) == multiset(s) - multiset{s[0]};
    assert multiset(rest) == multiset(t) - multiset{t[k]};
  }

  /** The smallest rank of a sorted batch is at its head. */
  lemma HeadHasLeastRank(s: seq<RankedRow>, x: RankedRow)
    requires SortedByRank(s)
    requires x in multiset(s)
    ensures s[0].rank <= x.rank
  {
    var k :| 0 <= k < |s| && s[k] == x;
  }

  /** Any two rank-sorted orders of the same rows agree on the rank at
      every position: a sort may only reorder rows that share a rank. */
  lemma {:induction false} SortedPermutationsAgreeOnRanks(s: seq<RankedRow>, t: seq<RankedRow>)
    requires multiset(s) == multiset(t)
    requires SortedByRank(s) && SortedByRank(t)
    ensures |s| == |t|
    ensures forall i :: 0 <= i < |s| ==> s[i].rank == t[i].rank
    decreases |s|
  {
    assert |s| == |multiset(s)| == |t|;
    if |s| > 0 {
      assert s[0] in multiset(t) && t[0] in multiset(s);
      HeadHasLeastRank(t, s[0]);
      HeadHasLeastRank(s, t[0]);
      var k :| 0 <= k < |t| && t[k] == s[0];
      var rest := t[..k] + t[k + 1..];
      TailMatchesRemainder(s, t, k);
      assert SortedByRank(rest) by {
        forall i, j | 0 <= i < j < |rest| ensures rest[i].rank <= rest[j].rank {
          var i' := if i < k then i else i + 1;
          var j' := if j < k then j else j + 1;
          assert rest[i] == t[i'] && rest[j] == t[j'];
        }
      }
      assert SortedByRank(s[1..]);
      SortedPermutationsAgreeOnRanks(s[1..], rest);
      forall i | 0 <= i < |s| ensures s[i].rank == t[i].rank {
        if i == 0 {
        } else if i <= k {
          assert s[i] == s[1..][i - 1];
          assert rest[i - 1] == t[i - 1];
          assert t[0].rank <= t[i - 1].rank <= t[i].rank <= t[k].rank;
        } else {
          assert s[i] == s[1..][i - 1];
          assert rest[i - 1] == t[i];
        }
      }
    }
  }

  /** `sort_values` may order tied rows any way it likes; every answer it
      could give is a rank-sorted permutation of the annotated batch, and
      all of them carry the same rank and probability at every position as
      the answer of this model. */
  lemma AnySortedAnswerAgrees(rows: seq<Record>, model: Classifier, answer: seq<RankedRow>)
    requires multiset(answer) == multiset(Annotate(rows, model))
    requires SortedByRank(answer)
    ensures |answer| == |rows|
    ensures forall i :: 0 <= i < |answer| ==>
      && answer[i].rank == Rank(rows, model)[i].rank
      && answer[i].probability == Rank(rows, model)[i].probability
  {
    var ranked := Rank(rows, model);
    SortedPermutationsAgreeOnRanks(answer, ranked);
    RankedRowsAreScored(rows, model);
    var ps := Probabilities(rows, model);
    forall i | 0 <= i < |answer|
      ensures answer[i].probability == ranked[i].probability
    {
      assert answer[i] in multiset(Annotate(rows, model));
      var k :| 0 <= k < |rows| && Annotate(rows, model)[k] == answer[i];
      assert ps[k] == answer[i].probability;
      var j := IndexOf(rows, ranked[i].row);
      assert ps[j] == ranked[i].probability;
      AverageRankOrder(ps, answer[i].probability, ranked[i].probability);
    }
  }

  // ---------------------------------------------------------------------
  // Where tied rows sit in the answer
  // ---------------------------------------------------------------------

  /** Number of rows of `s` whose probability is above `x`. */
  function RowsAbove(s: seq<RankedRow>, x: real): nat {
    if |s| == 0 then 0
    else (if s[0].probability > x then 1 else 0) + RowsAbove(s[1..], x)
  }

  /** Number of rows of `s` whose probability is at least `x`. */
  function RowsAtLeast(s: seq<RankedRow>, x: real): nat {
    if |s| == 0 then 0
    else (if s[0].probability >= x then 1 else 0) + RowsAtLeast(s[1..], x)
  }

  lemma {:induction false} RowCountsAppend(a: seq<RankedRow>, b: seq<RankedRow>, x: real)
    ensures RowsAbove(a + b, x) == RowsAbove(a, x) + RowsAbove(b, x)
    ensures RowsAtLeast(a + b, x) == RowsAtLeast(a, x) + RowsAtLeast(b, x)
    decreases |a|
  {
    if |a| == 0 {
      assert a + b == b;
    } else {
      RowCountsAppend(a[1..], b, x);
      assert (a + b)[0] == a[0];
      assert (a + b)[1..] == a[1..] + b;
    }
  }

  /** Reordering rows does not change how many lie above or at `x`. */
  lemma {:induction false} RowCountsPermutation(s: seq<RankedRow>, t: seq<RankedRow>, x: real)
    requires multiset(s) == multiset(t)
    ensures RowsAbove(s, x) == RowsAbove(t, x)
    ensures RowsAtLeast(s, x) == RowsAtLeast(t, x)
    decreases |s|
  {
    if |s| == 0 {
      assert |t| == |multiset(t)| == 0;
    } else {
      assert s[0] in multiset(t);
      var k :| 0 <= k < |t| && t[k] == s[0];
      TailMatchesRemainder(s, t, k);
      RowCountsPermutation(s[1..], t[..k] + t[k + 1..], x);
      assert t == t[..k] + ([t[k]] + t[k + 1..]);
      RowCountsAppend(t[..k], [t[k]] + t[k + 1..], x);
      RowCountsAppend(t[..k], t[k + 1..], x);
      assert ([t[k]] + t[k + 1..])[1..] == t[k + 1..];
    }
  }

  /** Row counts over the annotated batch are the probability counts. */
  lemma {:induction false} RowCountsOfScores(s: seq<RankedRow>, ps: seq<real>, x: real)
    requires |s| == |ps|
    requires forall i :: 0 <= i < |s| ==> s[i].probability == ps[i]
    ensures RowsAbove(s, x) == CountAbove(ps, x)
    ensures RowsAtLeast(s, x) == CountAbove(ps, x) + CountEqual(ps, x)
    decreases |s|
  {
    if |s| > 0 {
      RowCountsOfScores(s[1..], ps[1..], x);
    }
  }

  /** No row above `x` when every probability is at most `x`; none at
      or above `x` when every probability is below it. */
  lemma {:induction false} RowCountsBelow(s: seq<RankedRow>, x: real)
    ensures (forall i :: 0 <= i < |s| ==> s[i].probability <= x) ==> RowsAbove(s, x) == 0
    ensures (forall i :: 0 <= i < |s| ==> s[i].probability < x) ==> RowsAtLeast(s, x) == 0
    decreases |s|
  {
    if |s| > 0 {
      RowCountsBelow(s[1..], x);
      assert forall i :: 0 <= i < |s[1..]| ==> s[1..][i] == s[i + 1];
    }
  }

  /** Non-increasing by probability. */
  predicate ByFallingProbability(s: seq<RankedRow>) {
    forall i, j :: 0 <= i < j < |s| ==> s[i].probability >= s[j].probability
  }

  /** In rows of falling probability, those above `x` form the prefix of
      length RowsAbove, and those at or above `x` the prefix of length
      RowsAtLeast. */
  lemma {:induction false} FallingPrefixes(s: seq<RankedRow>, x: real)
    requires ByFallingProbability(s)
    ensures forall k :: 0 <= k < |s| ==> (s[k].probability > x <==> k < RowsAbove(s, x))
    ensures forall k :: 0 <= k < |s| ==> (s[k].probability >= x <==> k < RowsAtLeast(s, x))
    decreases |s|
  {
    if |s| > 0 {
      var tail := s[1..];
      assert ByFallingProbability(tail);
      FallingPrefixes(tail, x);
      RowCountsBelow(tail, x);
      forall k | 1 <= k < |s|
        ensures s[k] == tail[k - 1]
        ensures s[k].probability <= s[0].probability
      {
      }
    }
  }

  /** The rows of the answer with probability `x` are exactly those at the
      0-based positions CountAbove .. CountAbove + CountEqual - 1, i.e. the
      1-based positions CountAbove + 1 .. CountAbove + CountEqual that
      AverageRankIsMeanPosition averages; rows above `x` come before them. */
  lemma TiedRowsOccupyPositions(rows: seq<Record>, model: Classifier, x: real)
    ensures
      var ranked := Rank(rows, model);
      var ps := Probabilities(rows, model);
      forall k :: 0 <= k < |ranked| ==>
        && (ranked[k].probability > x <==> k < CountAbove(ps, x))
        && (ranked[k].probability == x <==>
              CountAbove(ps, x) <= k < CountAbove(ps, x) + CountEqual(ps, x))
  {
    var ranked := Rank(rows, model);
    var ps := Probabilities(rows, model);
    var ann := Annotate(rows, model);
    RowCountsPermutation(ranked, ann, x);
    RowCountsOfScores(ann, ps, x);
    RankedByProbability(rows, model);
    assert ByFallingProbability(ranked);
    FallingPrefixes(ranked, x);
  }

  /** An empty batch gives an empty answer. */
  lemma RankEmptyBatch(model: Classifier)
    ensures Rank([], model) == []
  {
  }

  /** A batch of one row ranks it first. */
  lemma RankSingleRow(row: Record, model: Classifier)
    ensures Rank([row], model) == [RankedRow(row, model(row), 1.0)]
  {
    var ps := Probabilities([row], model);
    assert ps == [model(row) as real];
    assert AverageRank(ps, model(row)) == 1.0;
    assert Annotate([row], model) == [RankedRow(row, model(row), 1.0)];
  }

  /** A batch already in rank order is left as it is. */
  lemma {:induction false} SortKeepsSortedBatch(s: seq<RankedRow>)
    requires SortedByRank(s)
    ensures SortByRank(s) == s
    decreases |s|
  {
    if |s| > 0 {
      assert SortedByRank(s[1..]);
      SortKeepsSortedBatch(s[1..]);
      assert s == [s[0]] + s[1..];
    }
  }

  /** Three planets scored 0.9, 0.5 and 0.5 come back in the same order
      with ranks 1, 2.5 and 2.5. */
  lemma RankExample(a: Record, b: Record, c: Record, model: Classifier)
    requires model(a) == 0.9 && model(b) == 0.5 && model(c) == 0.5
    ensures Rank([a, b, c], model)
      == [RankedRow(a, 0.9, 1.0), RankedRow(b, 0.5, 2.5), RankedRow(c, 0.5, 2.5)]
  {
    var expected := [RankedRow(a, 0.9, 1.0), RankedRow(b, 0.5, 2.5), RankedRow(c, 0.5, 2.5)];
    assert Annotate([a, b, c], model) == expected by {
      assert Probabilities([a, b, c], model) == [0.9, 0.5, 0.5];
      AverageRankExample();
    }
    SortKeepsSortedBatch(expected);
  }
}

=== FILE: scoring.dfy ===
/**
 The single-planet endpoints: `predict` validates the body, scores it with
 the classifier and turns the probability into a 0/1 verdict with a fixed
 cut-off; `predict_input` runs the same validation and echoes the body.
 */
module Scoring {
  import opened Planet
  import opened Validation

  /** The cut-off: a planet is called habitable from probability 0.3 up. */
  const Threshold: real := 0.3

  /** The 0/1 verdict for an (unrounded) probability. */
  function Verdict(p: real): (habitable: int)
    ensures habitable == 0 || habitable == 1
    ensures habitable == 1 <==> p >= Threshold
  {
    if p >= Threshold then 1 else 0
  }

  /** Round to three decimals, halves to the even neighbour, as Python's
      `round(x, 3)` does on an exactly representable value. */
  function Round3(p: real): (r: real)
    ensures (r * 1000.0).Floor as real == r * 1000.0
    ensures -0.0005 <= r - p <= 0.0005
    ensures 0.0 <= p <= 1.0 ==> 0.0 <= r <= 1.0
  {
    var scaled := p * 1000.0;
    var n := scaled.Floor;
    var frac := scaled - n as real;
    var k :=
      if frac > 0.5 then n + 1
      else if frac < 0.5 then n
      else if n % 2 == 0 then n
      else n + 1;
    k as real / 1000.0
  }

  /** The answer of `predict`: either the missing-field error or a verdict
      with the probability as reported (rounded). */
  datatype PredictResponse =
    | Rejected(missingFields: seq<string>)
    | Scored(habitable: int, probability: real)

  /** The answer of `predict_input`: the missing-field error or the body
      echoed back. */
  datatype InputResponse =
    | InputRejected(missingFields: seq<string>)
    | Submitted(inputData: Record)

  /** The `predict` endpoint with the trained classifier as a parameter. */
  function Predict(data: Record, model: Classifier): (resp: PredictResponse)
    ensures resp.Rejected? <==> exists f :: f in RequiredFields && f !in data
    ensures resp.Rejected? ==> resp.missingFields == MissingFields(data) && |resp.missingFields| > 0
    ensures resp.Scored? ==>
      && (resp.habitable == 1 <==> model(data) >= Threshold)
      && (resp.habitable == 0 <==> model(data) < Threshold)
      && resp.probability == Round3(model(data))
      && (resp.probability * 1000.0).Floor as real == resp.probability * 1000.0
      && 0.0 <= resp.probability <= 1.0
      && -0.0005 <= resp.probability - model(data) <= 0.0005
  {
    var missing := MissingFields(data);
    if |missing| > 0 then
      Rejected(missing)
    else
      var p := model(data);
      Scored(Verdict(p), Round3(p))
  }

  /** The `predict_input` endpoint. */
  function PredictInput(data: Record): (resp: InputResponse)
    ensures resp.InputRejected? <==> exists f :: f in RequiredFields && f !in data
    ensures resp.InputRejected? ==> resp.missingFields == MissingFields(data) && |resp.missingFields| > 0
    ensures resp.Submitted? ==> resp.inputData == data
  {
    var missing := MissingFields(data);
    if |missing| > 0 then InputRejected(missing) else Submitted(data)
  }

  function Abs(x: real): real {
    if x < 0.0 then -x else x
  }

  /** The rounded value is a nearest multiple of 0.001: no other multiple
      `m / 1000` is closer to `p`. */
  lemma Round3IsNearest(p: real, m: int)
    ensures Abs(Round3(p) - p) <= Abs(m as real / 1000.0 - p)
  {
    var scaled := p * 1000.0;
    var n := scaled.Floor;
    var r := Round3(p);
    var k := (r * 1000.0).Floor;
    assert r * 1000.0 == k as real;
    assert k == n || k == n + 1;
    assert Abs(k as real - scaled) <= Abs(m as real - scaled) by {
      if m <= n {
        assert scaled - m as real >= scaled - n as real;
      } else {
        assert m as real - scaled >= n as real + 1.0 - scaled;
      }
    }
    assert Abs(r - p) * 1000.0 == Abs(k as real - scaled);
    assert Abs(m as real / 1000.0 - p) * 1000.0 == Abs(m as real - scaled);
  }

  /** The verdict only grows with the probability. */
  lemma VerdictMonotone(p: real, q: real)
    requires p <= q
    ensures Verdict(p) <= Verdict(q)
  {
  }

  /** A rejected body is answered without the classifier: any two
      classifiers give the same answer, the missing-field list. */
  lemma RejectionIgnoresClassifier(data: Record, m1: Classifier, m2: Classifier)
    requires exists f :: f in RequiredFields && f !in data
    ensures Predict(data, m1) == Predict(data, m2) == Rejected(MissingFields(data))
  {
  }

  /** Comparing the rounded value with the cut-off would be a different
      rule: a classifier answering 0.2996 gets verdict 0 while the reported
      probability reads 0.3. */
  lemma VerdictUsesUnroundedProbability(data: Record)
    requires forall f :: f in RequiredFields ==> f in data
    ensures Predict(data, (row: Record) => 0.2996) == Scored(0, 0.3)
    ensures Verdict(Round3(0.2996)) == 1
  {
    var r := Round3(0.2996);
    assert (0.2996 * 1000.0).Floor == 299;
    assert r == 0.3;
  }

  /** `predict` and `predict_input` accept and reject the same bodies, with
      the same missing-field list. */
  lemma EndpointsAgree(data: Record, model: Classifier)
    ensures Predict(data, model).Rejected? <==> PredictInput(data).InputRejected?
    ensures Predict(data, model).Rejected? ==>
      Predict(data, model).missingFields == PredictInput(data).missingFields
  {
  }
}

=== FILE: validation.dfy ===
/**
 The required-field check shared by the `predict` and `predict_input`
 endpoints: the list of required field names whose key is absent from the
 request body. The check looks at keys only, never at values.
 */
module Validation {
  import opened Planet

  /** The names in `fields` that are not keys of `data`, in the order of
      `fields`. */
  function Absent(fields: seq<string>, data: Record): (missing: seq<string>)
    ensures forall f :: f in missing <==> f in fields && f !in data
    ensures |missing| <= |fields|
    ensures Distinct(fields) ==> InListOrder(missing, fields)
  {
    if |fields| == 0 then []
    else
      var rest := Absent(fields[1..], data);
      if fields[0] in data then rest
      else
        assert Distinct(fields) ==> forall f :: f in rest ==> f != fields[0] by {
          if Distinct(fields) {
            forall f | f in rest ensures f != fields[0] {
              var k := IndexOf(fields[1..], f);
              assert fields[k + 1] == f;
            }
          }
        }
        [fields[0]] + rest
  }

  /** Every element of `sub` occurs in `order`, and the elements of `sub`
      occur in strictly increasing position of `order` (so `sub` has no
      duplicates either). */
  ghost predicate InListOrder(sub: seq<string>, order: seq<string>) {
    && (forall f :: f in sub ==> f in order)
    && forall i, j :: 0 <= i < j < |sub| ==> IndexOf(order, sub[i]) < IndexOf(order, sub[j])
  }

  /** The required fields a request body lacks; empty means the body is
      accepted. */
  function MissingFields(data: Record): (missing: seq<string>)
    ensures forall f :: f in missing <==> f in RequiredFields && f !in data
    ensures InListOrder(missing, RequiredFields)
    ensures Distinct(missing)
    ensures |missing| == 0 <==> forall f :: f in RequiredFields ==> f in data
  {
    RequiredFieldsDistinct();
    var m := Absent(RequiredFields, data);
    assert Distinct(m) by {
      forall i, j | 0 <= i < j < |m| ensures m[i] != m[j] {
        assert IndexOf(RequiredFields, m[i]) < IndexOf(RequiredFields, m[j]);
      }
    }
    assert |m| == 0 ==> forall f :: f in RequiredFields ==> f in data by {
      if |m| == 0 {
        forall f | f in RequiredFields ensures f in data {
          assert f in m <==> f !in data;
        }
      }
    }
    assert |m| > 0 ==> m[0] in RequiredFields && m[0] !in data;
    m
  }

  /** Two lists that hold the same names, each in the order of `order`, are
      the same list. */
  lemma {:induction false} InListOrderUnique(a: seq<string>, b: seq<string>, order: seq<string>)
    requires InListOrder(a, order) && InListOrder(b, order)
    requires forall f :: f in a <==> f in b
    ensures a == b
    decreases |a|
  {
    // Each list is empty exactly when the other one is.
    if |a| > 0 { assert a[0] in b; }
    if |b| > 0 { assert b[0] in a; }
    if |a| > 0 {
      var ia := IndexOf(order, a[0]);
      var ib := IndexOf(order, b[0]);
      HeadHasLeastIndex(a, order, b[0]);
      HeadHasLeastIndex(b, order, a[0]);
      assert a[0] == order[ia] == order[ib] == b[0];
      forall f ensures f in a[1..] <==> f in b[1..] {
        if f in a[1..] {
          var k :| 1 <= k < |a| && a[k] == f;
          assert IndexOf(order, a[0]) < IndexOf(order, a[k]);
          assert f in b && f != b[0];
        }
        if f in b[1..] {
          var k :| 1 <= k < |b| && b[k] == f;
          assert IndexOf(order, b[0]) < IndexOf(order, b[k]);
          assert f in a && f != a[0];
        }
      }
      assert InListOrder(a[1..], order) by {
        forall i, j | 0 <= i < j < |a[1..]|
          ensures IndexOf(order, a[1..][i]) < IndexOf(order, a[1..][j])
        {
          assert a[1..][i] == a[i + 1] && a[1..][j] == a[j + 1];
        }
      }
      assert InListOrder(b[1..], order) by {
        forall i, j | 0 <= i < j < |b[1..]|
          ensures IndexOf(order, b[1..][i]) < IndexOf(order, b[1..][j])
        {
          assert b[1..][i] == b[i + 1] && b[1..][j] == b[j + 1];
        }
      }
      InListOrderUnique(a[1..], b[1..], order);
      assert a == [a[0]] + a[1..] && b == [b[0]] + b[1..];
    }
  }

  /** The first element of an ordered list has the least position. */
  lemma HeadHasLeastIndex(a: seq<string>, order: seq<string>, f: string)
    requires InListOrder(a, order)
    requires f in a
    ensures f in order
    ensures IndexOf(order, a[0]) <= IndexOf(order, f)
  {
    var k :| 0 <= k < |a| && a[k] == f;
    if k > 0 {
      assert IndexOf(order, a[0]) < IndexOf(order, a[k]);
    }
  }

  /** The missing-field list is the only list that names exactly the absent
      required fields in the order the service declares them. */
  lemma MissingFieldsUnique(data: Record, m: seq<string>)
    requires forall f :: f in m <==> f in RequiredFields && f !in data
    requires InListOrder(m, RequiredFields)
    ensures m == MissingFields(data)
  {
    InListOrderUnique(m, MissingFields(data), RequiredFields);
  }

  /** The check reads only the key set of the body. */
  lemma {:induction false} AbsentDependsOnKeysOnly(fields: seq<string>, data: Record, other: Record)
    requires data.Keys == other.Keys
    ensures Absent(fields, data) == Absent(fields, other)
    decreases |fields|
  {
    if |fields| > 0 {
      AbsentDependsOnKeysOnly(fields[1..], data, other);
    }
  }

  /** A present key counts as supplied whatever its value, JSON null
      included: replacing any value by null never changes the verdict. */
  lemma PresentKeyCountsWhateverValue(data: Record, key: string, v: Value)
    ensures MissingFields(data[key := v]) == MissingFields(data[key := Null])
    ensures key in RequiredFields ==> key !in MissingFields(data[key := Null])
  {
    AbsentDependsOnKeysOnly(RequiredFields, data[key := v], data[key := Null]);
  }

  /** A body without keys misses every field, in list order. */
  lemma {:induction false} AbsentFromEmpty(fields: seq<string>)
    ensures Absent(fields, map[]) == fields
    decreases |fields|
  {
    if |fields| > 0 {
      AbsentFromEmpty(fields[1..]);
      assert fields == [fields[0]] + fields[1..];
    }
  }

  /** An empty body is rejected with the whole required list. */
  lemma EmptyBodyMissesAll()
    ensures MissingFields(map[]) == RequiredFields
  {
    AbsentFromEmpty(RequiredFields);
  }
}
